=== FILE: README.md ===
# User accounts of the recipe API, in Dafny

This project models the user-account core of a small Django REST service.
Users register with an email and a password, log in to obtain a bearer
token, and read or update their own profile. The model is a pure state
machine over an in-memory database with two tables.

- The **user table** (`Models.Store.users`) holds users. A user's primary key
  is its row position.
- The **token table** (`Models.Store.tokens`) holds tokens. Each row binds a
  key to a user's primary key.

Every operation is a function that returns either the new store and a value,
or an error. Errors carry no store, so a failed request changes nothing.

Modules, leaves first:

- `Results`: `Option`, `Result` and the error kinds.
- `Tables`: the one row lookup used for every query.
- `Text`: Python's `str.strip()`, `str.lower()` and `str.rsplit('@', 1)`.
- `Emails`: `normalize_email`. It strips the address, splits it at the last
  `@` and lowercases only the domain part.
- `Passwords`: `set_password` / `check_password` over a stand-in digest.
- `Models`: the `User` record, `UserManager.create_user`,
  `UserManager.create_superuser`, the store invariant, and authentication by
  exact email.
- `Tokens`: the token table behind the login view and token authentication.
- `Serializers`: field validation of `UserSerializer`, `create`, `update`,
  the write-only representation, and `AuthTokenSerializer.validate`.
- `Views`: the register, login and "me" endpoints. Also `Handle`, the service
  as a state machine over requests, and `Run` over a sequence of them.

Randomness enters as parameters: each request carries the salt its password
hashing would draw and the key token generation would draw. Hashing is a
stand-in digest. It keeps the one property the code relies on: a stored
password verifies against the raw password it was made from and against no
other.

In these places the model follows what the code does, which is not what a
reader of the endpoints might expect:

- Login looks the user up by the submitted email exactly (after whitespace
  trimming), not by its normalized form. `Views.RegisterThenLogin` states the
  consequence. Logging in with the just-registered credentials succeeds
  exactly when the email, once trimmed, was already in normal form and the
  password has no surrounding whitespace.
- Registration trims the password before hashing, because the serializer
  field keeps its default `trim_whitespace`. The login field sets
  `trim_whitespace=False`, so the login password is compared untrimmed.
- On registration, `name` is required and must not be blank. The model field
  has neither `blank=True` nor a default, so the serializer makes it required.
- No operation can make a user inactive. The inactive-user checks of the
  authentication backend and of token authentication therefore never apply.
  `Views.ReachableStoresWellFormed` proves that every reachable user is
  active in the service with the corrected update. For the program's own
  update, `Serializers.UpdateAsWrittenKeepsConstraints` proves that it keeps
  users active, emails exactly unique, superusers staff and tokens
  consistent.

## Model

| member | source | states |
|---|---|---|
| `Emails.NormalizeEmail` | app/core/models.py:16-18 | An address containing `@` after stripping is stored as its local part unchanged, then `@`, then the domain lowercased. An address without `@` is stored exactly as given. |
| `Emails.NormalizeIdempotent` | app/core/models.py:16-18 | Normalizing an address that is already normalized changes nothing, so every stored email is in normal form. |
| `Emails.SameNormalFormIff` | app/core/models.py:18 | Two addresses normalize to the same stored email exactly when their local parts are equal and their domains are equal ignoring case. |
| `Emails.UpperDomainFolded` | app/core/models.py:16-18 | `a@B.com` is stored as `a@b.com`. |
| `Emails.UpperLocalKept` | app/core/models.py:16-18 | `A@b.com` is stored unchanged, so it stays distinct from `a@b.com`. |
| `Passwords.MakePassword` | app/core/models.py:19 | A hashed password verifies against exactly the raw password it was made from. A missing password gives an unusable value that verifies against nothing. |
| `Models.FindByEmail` | app/core/models.py:42 | A lookup by the identity field returns a user whose email is exactly the one asked for. It returns nothing only when no user has that email. |
| `Models.CreateUser` | app/core/models.py:10-21 | An empty email fails with the missing-email error. A normalized email that is already stored fails with a conflict. Otherwise exactly one user is appended. The new user has the normalized email, a password that verifies against exactly the given one, and the given name (empty by default). The new user is active, not staff and not superuser. Earlier rows and the token table are unchanged. |
| `Models.CreateSuperuser` | app/core/models.py:23-30 | Fails in the same cases as `create_user`, with the same email and password handling. The new user is active, staff and superuser, with an empty name. |
| `Models.CreateUserPreservesWellFormed` | app/core/models.py:35 | Creating a user keeps every store invariant: emails unique and normalized, users active, superusers staff, and the token table consistent. |
| `Models.CreateSuperuserPreservesWellFormed` | app/core/models.py:23-30 | Creating a superuser keeps the same store invariant. |
| `Models.NormalizedEmailsUnique` | app/core/models.py:35 | In a well-formed store, two users whose emails normalize alike are the same user. |
| `Models.Authenticate` | app/core/models.py:42 | Success names a user whose email equals the given one exactly and whose stored password verifies. If emails are unique, authentication fails exactly when no user with that email verifies the password. |
| `Tokens.ResolveToken` | app/user/views.py:28 | A known key resolves to the user its token row names. An unknown key resolves to nothing. |
| `Tokens.GetOrCreateToken` | app/user/views.py:14-16 | A user who has a token gets that key back, and nothing changes. Otherwise a row with the fresh key is added; it fails with a conflict only when that key is already taken. The user table is never changed. |
| `Tokens.IssuedKeyResolves` | app/user/views.py:14-16 | The key handed out resolves to the user it was issued for. |
| `Tokens.IssueTwiceSameKey` | app/user/views.py:14-16 | A second request for the same user returns the same key and leaves the store unchanged. |
| `Tokens.GetOrCreatePreservesWellFormed` | app/user/views.py:14-16 | Issuing a key keeps keys unique and at most one token per user. |
| `Serializers.CleanChars` | app/user/serializers.py:19 | A submitted string is accepted exactly when its value after trimming (where the field trims) is non-empty and within the field's length bounds. The accepted value is the trimmed string. |
| `Serializers.ValidateUser` | app/user/serializers.py:10-19 | Validation fails exactly when some field fails. A field fails when it is required but missing, blank, out of its length bounds, or (for the email) already held exactly by another user. The error names exactly the failing fields. A full (non-partial) validation yields all three fields. |
| `Serializers.ValidatedDataIsClean` | app/user/serializers.py:12 | Validated data holds exactly the fields that were submitted, each replaced by its cleaned value. A validated email is not held by any other user. |
| `Serializers.ShortPasswordRejected` | app/user/serializers.py:19 | A password shorter than 5 characters after trimming is always rejected, and the error names the password field. |
| `Serializers.Create` | app/user/serializers.py:23-25 | On success, looking up the normalized email finds the new user. Its password verifies against exactly the validated one, and earlier users are unchanged. Creation fails exactly when the email is empty or its normal form is already stored. |
| `Serializers.SaveUpdate` | app/user/serializers.py:31-37 | The save fails exactly when another user already has the email being written. Otherwise only the target row changes. The given name is written and absent fields keep their value. A non-empty password replaces the hash with one that verifies against exactly that password. A missing or empty password leaves the hash unchanged. |
| `Serializers.UpdateAsWritten` | app/user/serializers.py:27-39 | The update the program runs. Only the target user changes, and absent fields keep their values. A submitted email is stored exactly as submitted, without normalizing it. The hash is replaced only for a non-empty password, and the new hash verifies against exactly that password. The flags never change. If emails are unique, the update fails with a conflict exactly when another user already has exactly the submitted email. |
| `Serializers.UpdateAsWrittenKeepsConstraints` | app/core/models.py:35-38 | The program's own update keeps emails exactly unique (the column's unique constraint), users active, superusers staff and the token table consistent. It can only lose normal form. |
| `Serializers.UpdateAsWrittenBreaksNormalizedUniqueness` | app/user/serializers.py:33 | Suppose `a@b.com` is stored and a second user PATCHes its email to `a@B.com`. The starting store satisfies the store invariant. Validation passes and the update as written succeeds. Afterwards both users have the same normalized email, and the store no longer satisfies the invariant. |
| `Serializers.Update` | app/user/serializers.py:27-39 | The corrected update: only the target user changes. Absent fields keep their values. A given email is stored normalized. The hash is replaced only for a non-empty password, and the new hash verifies against exactly that password. The flags never change. If emails are unique, the update fails with a conflict exactly when another user already has the normalized email. |
| `Serializers.UpdateRefusesMixedCaseDuplicate` | app/user/serializers.py:33 | The normalizing update refuses the `a@B.com` request that the update as written accepts. |
| `Serializers.UpdatePreservesWellFormed` | app/user/serializers.py:27-39 | Updating a user keeps every store invariant, including emails unique after normalization. |
| `Serializers.Represent` | app/user/serializers.py:12 | The serialized user carries the stored email and name. |
| `Serializers.RepresentationHidesPassword` | app/user/serializers.py:19 | The serialized user does not depend on the stored password: it holds only email and name. |
| `Serializers.ValidateCredentials` | app/user/serializers.py:52-69 | A missing or blank field is a field error. Otherwise every failed authentication gives the one `BadCredentials` error. Success carries the user whose email equals the trimmed email and whose password verifies against the untrimmed password. If emails are unique, login fails exactly when no user with that email verifies the password. |
| `Serializers.LoginFailuresAlike` | app/user/serializers.py:62-66 | An unknown email and a wrong password for a known email produce identical results. |
| `Views.Register` | app/user/views.py:8-10 | A failed validation is returned as is. This covers a missing field and a password shorter than 5 after trimming. Once validation passes, registration succeeds exactly when no stored user has the normal form of the trimmed email; otherwise it fails with a conflict, not a field error. On success exactly one user is appended. Its trimmed email is stored normalized, and its hash verifies exactly the trimmed password. The new user is active and not staff, and the response is its representation. |
| `Views.ObtainToken` | app/user/views.py:14-16 | Failed credential validation yields that same error and no token. A user who already has a token gets that key back, with the store unchanged. Otherwise exactly one row binding the fresh key to the user is added, and login fails with a conflict only when that key is already taken. Login never changes the user table. If the token table is consistent, the returned key resolves to the authenticated user. |
| `Views.CurrentUser` | app/user/views.py:28-29 | A request is authenticated exactly when it presents a known key whose user exists. The identity is the key's owner. |
| `Views.RetrieveMe` | app/user/views.py:36-38 | An unauthenticated request gets the not-authenticated error, and an authenticated one always gets the representation of the token's own user. |
| `Views.UpdateMe` | app/user/views.py:24-38 | An unauthenticated request gets the not-authenticated error, and a failed validation is returned as is. An authenticated request that passes validation can fail only with a conflict. If validation passes and emails are unique, the request succeeds exactly when it gives no email, or no other user has the normal form of the given one. On success the changed row is the token's own user and no other user changes. Omitted fields keep their values. Given fields are stored cleaned, with the email normalized (the corrected update) and the password re-hashed. |
| `Views.Handle` | app/user/views.py:8-38 | A failed request leaves the store unchanged. Retrieval never changes the store. Login never changes the user table. Registration only appends users, and an update keeps the number of users; neither touches the token table. |
| `Views.HandlePreservesWellFormed` | app/core/models.py:35 | With the corrected update, every kind of request keeps the store invariant. |
| `Views.RunPreservesWellFormed` | app/core/models.py:35 | With the corrected update, any sequence of requests keeps the store invariant. |
| `Views.ReachableStoresWellFormed` | app/core/models.py:35-38 | With the corrected update, every store reachable from an empty database has unique normalized emails and only active users. Superusers are staff, and each user has at most one token. |
| `Views.RegisterThenLogin` | app/user/serializers.py:45-49 | Logging in with the registered email and password succeeds exactly when the email, once trimmed, was already in normal form and the password has no surrounding whitespace. Success names the new user. |
| `Views.LoginOfStored` | app/user/serializers.py:52-69 | Take a stored user whose email is the normal form of the submitted one and whose hash verifies exactly a registered password. Login succeeds exactly when the stripped email is already normalized and the submitted password equals the registered one, and it then names that user. |
| `Views.RegisterLoginRetrieve` | app/user/views.py:8-38 | From an empty database, registering `a@b.com` with password `secret`, logging in with the same credentials and reading the profile with the issued key all succeed. The profile read back is `a@b.com` with name `A`. |
| `Views.LoginThenRetrieve` | app/user/views.py:36-38 | The key from a successful login opens the profile of exactly the user who logged in. |

## Findings

| source | as written | input that shows it | evidently intended | confidence | as-written member | corrected member |
|---|---|---|---|---|---|---|
| app/user/serializers.py:33 | `update` hands the email to the inherited update, which stores it without `normalize_email`; the unique validator compares emails exactly | with `a@b.com` stored, a second user PATCHes `{"email": "a@B.com"}`; validation passes and both users then normalize to `a@b.com` | an updated email is normalized as on creation, so no two users share a normalized email | medium, not executed | `Serializers.UpdateAsWrittenBreaksNormalizedUniqueness` | `Serializers.Update` |

The endpoints use the corrected `Serializers.Update`.
`Serializers.UpdatePreservesWellFormed` proves the intended property for it.
`Serializers.UpdateRefusesMixedCaseDuplicate` shows it refusing the
counterexample request.

## Left out

- Views.UpdateMe: uses the corrected `Serializers.Update`, which normalizes a submitted email. The program stores the email as submitted: a lone PATCH to `x@Y.com` is stored as `x@Y.com`, not `x@y.com`, and a PATCH to `a@B.com` while `a@b.com` is held succeeds. `Serializers.UpdateAsWritten` states what the program does.
- Views.HandlePreservesWellFormed: describes the service with the corrected update. In the program as written, a PATCH can break the clause that every email is in normal form, and the clause that normalized emails are unique (see Findings).
- Views.RunPreservesWellFormed: describes the service with the corrected update, for the same reason as `Views.HandlePreservesWellFormed`.
- Views.ReachableStoresWellFormed: describes the service with the corrected update. The program as written can reach a store where two users share a normalized email; `Serializers.UpdateAsWrittenBreaksNormalizedUniqueness` exhibits one.

- Emails.NormalizeEmail: lowercases only the ASCII letters `A`-`Z`. Python's `str.lower()` also maps non-ASCII letters.
- Passwords.MakePassword: the digest is a stand-in that is injective for a given salt. Real password hashes (PBKDF2 with iterations) are one-way and collide only with negligible probability. The hasher-upgrade re-hash that `check_password` may perform on a successful login is not modelled.
- Serializers.ValidateUser: the email field's format check (Django's `EmailValidator`) is not modelled, so any non-blank string within 255 characters passes as an email. The framework's rejection of NUL characters in string fields is also not modelled.
- Serializers.Create: requires the validated data to hold an email. Creation always validates with every field required, and `create_user(**validated_data)` cannot be called without one.
- Models.CreateUser: takes only `name` as an extra field. It is the only extra field any caller in the repository passes. A caller-supplied `is_active` or `is_staff` is therefore not modelled.
- Models.CreateUser: a falsy email is modelled as the empty string. `None` fails the same check.
- Views.CurrentUser: the `Authorization: Token <key>` header is modelled as the presented key, or none. The header's parsing rules (keyword, spaces) are not modelled.
- Token key generation: random in the framework, so it is a request parameter.
- HTTP status codes, renderers and message translation: a duplicate that the unique constraint catches is the `Conflict` error. The framework reports it as a server error, not a field error.
- Database transactions and concurrent requests: the model is sequential, so each check-then-insert is atomic.
- `last_login`, `groups` and `user_permissions` from the framework's base classes: no modelled operation touches them.
- `ManageUserView.get_queryset` (app/user/views.py:31-32): it is never consulted, because `get_object` is overridden.
- The database wait command and the test suites: they hold no account logic.

=== FILE: emails.dfy ===
/**
  `BaseUserManager.normalize_email`: strip the address, split it at its last
  `@`, and lowercase only the domain part. An address without `@` is
  returned as given, unstripped.
 */
module Emails {
  import opened Results
  import opened Text

  /** The (local part, domain part) split `normalize_email` works on, if the address has an `@`. */
  function Mailbox(email: string): (r: Option<(string, string)>)
    ensures r.None? <==> '@' !in Strip(email)
    ensures r.Some? ==> Strip(email) == r.value.0 + "@" + r.value.1 && '@' !in r.value.1
  {
    RSplit(Strip(email), '@')
  }

  /** The stored form of an email address. */
  function NormalizeEmail(email: string): (r: string)
    ensures Mailbox(email).None? ==> r == email
    ensures Mailbox(email).Some? ==>
              var (local, domain) := Mailbox(email).value;
              |r| == |Strip(email)| && r[..|local|] == local && r[|local|] == '@'
              && r[|local| + 1..] == Lower(domain)
  {
    match Mailbox(email)
    case None => email
    case Some((local, domain)) => local + "@" + Lower(domain)
  }

  /** An address is in normal form when normalizing leaves it unchanged. */
  predicate IsNormalized(email: string) {
    NormalizeEmail(email) == email
  }

  /** Normalizing an address with an `@` yields local + "@" + lower(domain), split at the same `@`. */
  lemma MailboxOfNormalized(email: string)
    requires Mailbox(email).Some?
    ensures var (local, domain) := Mailbox(email).value;
            Mailbox(NormalizeEmail(email)) == Some((local, Lower(domain)))
  {
    var (local, domain) := Mailbox(email).value;
    var r := local + "@" + Lower(domain);
    var t := Strip(email);
    assert t == local + "@" + domain;
    assert Stripped(r) by {
      if |local| > 0 {
        assert r[0] == t[0];
      }
      if |domain| > 0 {
        assert r[|r| - 1] == LowerChar(t[|t| - 1]);
      }
    }
    StripOfStripped(r);
    assert '@' !in Lower(domain) by {
      forall i | 0 <= i < |domain|
        ensures Lower(domain)[i] != '@'
      {
        assert domain[i] != '@';
      }
    }
    assert r == local + ['@'] + Lower(domain);
    RSplitJoin(local, '@', Lower(domain));
  }

  /** Normalizing is idempotent: every stored address is already in normal form. */
  lemma NormalizeIdempotent(email: string)
    ensures IsNormalized(NormalizeEmail(email))
  {
    if Mailbox(email).Some? {
      var (local, domain) := Mailbox(email).value;
      MailboxOfNormalized(email);
      LowerIdempotent(domain);
    }
  }

  /**
    Two addresses with an `@` normalize to the same stored address exactly
    when their local parts are equal and their domains are equal up to case.
   */
  lemma SameNormalFormIff(e1: string, e2: string)
    requires Mailbox(e1).Some? && Mailbox(e2).Some?
    ensures NormalizeEmail(e1) == NormalizeEmail(e2) <==>
              Mailbox(e1).value.0 == Mailbox(e2).value.0
              && Lower(Mailbox(e1).value.1) == Lower(Mailbox(e2).value.1)
  {
    MailboxOfNormalized(e1);
    MailboxOfNormalized(e2);
  }

  /** A stripped address splits at its last `@`, and only the domain is lowered. */
  lemma NormalizeJoin(local: string, domain: string)
    requires '@' !in domain && Stripped(local + "@" + domain)
    ensures NormalizeEmail(local + "@" + domain) == local + "@" + Lower(domain)
  {
    StripOfStripped(local + "@" + domain);
    assert local + "@" + domain == local + ['@'] + domain;
    RSplitJoin(local, '@', domain);
  }

  /** `a@B.com` is stored as `a@b.com`: the domain's case is folded. */
  lemma UpperDomainFolded()
    ensures NormalizeEmail("a@B.com") == "a@b.com"
  {
    var domain := "B.com";
    assert !IsSpace('a') && !IsSpace('m');
    assert "a@B.com" == "a" + "@" + domain;
    NormalizeJoin("a", domain);
    assert Lower(domain) == "b.com" by {
      assert LowerChar('B') == 'b';
    }
  }

  /** `A@b.com` is stored as given: the local part keeps its case. */
  lemma UpperLocalKept()
    ensures NormalizeEmail("A@b.com") == "A@b.com"
  {
    var domain := "b.com";
    assert !IsSpace('A') && !IsSpace('m');
    assert "A@b.com" == "A" + "@" + domain;
    NormalizeJoin("A", domain);
    assert Lower(domain) == domain;
  }
}

=== FILE: models.dfy ===
/**
  The custom `User` model and its `UserManager`: users are identified by a
  unique email, passwords are stored only in hashed form, and the manager
  creates ordinary users and superusers. The store also holds the auth
  token table, whose rows point at users by primary key.
 */
module Models {
  import opened Results
  import opened Tables
  import opened Emails
  import opened Passwords

  /** One row of the user table. */
  datatype User = User(
    email: string,
    password: Password,
    name: string,
    isActive: bool,
    isStaff: bool,
    isSuperuser: bool)

  /** One row of the token table: a bearer key bound to a user's primary key. */
  datatype Token = Token(key: string, user: nat)

  /** The database: the user table and the token table. */
  datatype Store = Store(users: seq<User>, tokens: seq<Token>)

  const EmptyStore := Store([], [])

  /** The user whose stored email equals `email` exactly. */
  function FindByEmail(users: seq<User>, email: string): (r: Option<nat>)
    ensures r.Some? ==> r.value < |users| && users[r.value].email == email
    ensures r.None? ==> forall i :: 0 <= i < |users| ==> users[i].email != email
  {
    Find(users, (u: User) => u.email == email)
  }

  /** The unique constraint on the email column. */
  predicate UniqueEmails(users: seq<User>) {
    forall i, j :: 0 <= i < j < |users| ==> users[i].email != users[j].email
  }

  /** A superuser is always staff. */
  predicate SuperuserIsStaff(u: User) {
    u.isSuperuser ==> u.isStaff
  }

  /** The token table references existing users, with unique keys and at most one token per user. */
  predicate TokensWellFormed(users: seq<User>, tokens: seq<Token>) {
    && (forall t :: 0 <= t < |tokens| ==> tokens[t].user < |users|)
    && (forall t, t' :: 0 <= t < t' < |tokens| ==>
          tokens[t].key != tokens[t'].key && tokens[t].user != tokens[t'].user)
  }

  /**
    What the program keeps without normalizing updates: emails are unique
    exactly (the column's unique constraint), every user is active,
    superusers are staff, and the token table is consistent.
   */
  predicate ConstraintsHold(s: Store) {
    && UniqueEmails(s.users)
    && (forall i :: 0 <= i < |s.users| ==> s.users[i].isActive)
    && (forall i :: 0 <= i < |s.users| ==> SuperuserIsStaff(s.users[i]))
    && TokensWellFormed(s.users, s.tokens)
  }

  /**
    The invariant every reachable store keeps: the constraints above, and
    every email in normal form, so emails are unique after normalization.
   */
  predicate WellFormed(s: Store) {
    && ConstraintsHold(s)
    && (forall i :: 0 <= i < |s.users| ==> IsNormalized(s.users[i].email))
  }

  /**
    `UserManager.create_user`: refuse a falsy email, store the normalized
    email, the hashed password and the extra `name` (the model default ""
    when omitted), with the default flags. The unique email constraint
    refuses a normalized email that is already stored. Returns the new
    store and the new user's primary key.
   */
  function CreateUser(s: Store, email: string, password: Option<string>, name: Option<string>, salt: nat)
    : (r: Result<(Store, nat)>)
    ensures email == "" ==> r == Err(MissingEmail)
    ensures email != "" ==> (r.Err? <==> FindByEmail(s.users, NormalizeEmail(email)).Some?)
    ensures r.Err? ==> r.error == (if email == "" then MissingEmail else Conflict)
    ensures r.Ok? ==>
              var (s', id) := r.value;
              && id == |s.users| && |s'.users| == id + 1
              && s'.users[..id] == s.users && s'.tokens == s.tokens
              && s'.users[id].email == NormalizeEmail(email)
              && (forall pw :: CheckPassword(pw, s'.users[id].password) <==> password == Some(pw))
              && s'.users[id].name == name.GetOr("")
              && s'.users[id].isActive && !s'.users[id].isStaff && !s'.users[id].isSuperuser
  {
    if email == "" then Err(MissingEmail)
    else
      var normalized := NormalizeEmail(email);
      if FindByEmail(s.users, normalized).Some? then Err(Conflict)
      else
        var user := User(normalized, MakePassword(salt, password), name.GetOr(""), true, false, false);
        assert (s.users + [user])[..|s.users|] == s.users;
        Ok((Store(s.users + [user], s.tokens), |s.users|))
  }

  /** `UserManager.create_superuser`: `create_user`, then set `is_superuser` and `is_staff`. */
  function CreateSuperuser(s: Store, email: string, password: Option<string>, salt: nat)
    : (r: Result<(Store, nat)>)
    ensures email == "" ==> r == Err(MissingEmail)
    ensures email != "" ==> (r.Err? <==> FindByEmail(s.users, NormalizeEmail(email)).Some?)
    ensures r.Err? ==> r.error == (if email == "" then MissingEmail else Conflict)
    ensures r.Ok? ==>
              var (s', id) := r.value;
              && id == |s.users| && |s'.users| == id + 1
              && s'.users[..id] == s.users && s'.tokens == s.tokens
              && s'.users[id].email == NormalizeEmail(email)
              && (forall pw :: CheckPassword(pw, s'.users[id].password) <==> password == Some(pw))
              && s'.users[id].name == ""
              && s'.users[id].isActive && s'.users[id].isStaff && s'.users[id].isSuperuser
  {
    match CreateUser(s, email, password, None, salt)
    case Err(e) => Err(e)
    case Ok((s1, id)) =>
      var admin := s1.users[id].(isSuperuser := true, isStaff := true);
      Ok((s1.(users := s1.users[id := admin]), id))
  }

  /** Appending an active, ordinary user whose normalized email is not yet stored keeps the store invariant. */
  lemma AppendPreservesWellFormed(s: Store, u: User)
    requires WellFormed(s) && IsNormalized(u.email) && u.isActive && SuperuserIsStaff(u)
    requires forall i :: 0 <= i < |s.users| ==> s.users[i].email != u.email
    ensures WellFormed(Store(s.users + [u], s.tokens))
  {
    var users := s.users + [u];
    assert forall i :: 0 <= i < |s.users| ==> users[i] == s.users[i];
  }

  /** Creating a user keeps the store invariant. */
  lemma CreateUserPreservesWellFormed(s: Store, email: string, password: Option<string>, name: Option<string>, salt: nat)
    requires WellFormed(s)
    ensures var r := CreateUser(s, email, password, name, salt);
            r.Ok? ==> WellFormed(r.value.0)
  {
    var r := CreateUser(s, email, password, name, salt);
    if r.Ok? {
      var s' := r.value.0;
      var id := |s.users|;
      NormalizeIdempotent(email);
      assert s' == Store(s.users + [s'.users[id]], s.tokens);
      AppendPreservesWellFormed(s, s'.users[id]);
    }
  }

  /** Making an existing user a superuser keeps the store invariant. */
  lemma PromotePreservesWellFormed(s: Store, id: nat)
    requires WellFormed(s) && id < |s.users|
    ensures WellFormed(s.(users := s.users[id := s.users[id].(isSuperuser := true, isStaff := true)]))
  {
  }

  /** Creating a superuser keeps the store invariant. */
  lemma CreateSuperuserPreservesWellFormed(s: Store, email: string, password: Option<string>, salt: nat)
    requires WellFormed(s)
    ensures var r := CreateSuperuser(s, email, password, salt);
            r.Ok? ==> WellFormed(r.value.0)
  {
    var r1 := CreateUser(s, email, password, None, salt);
    if r1.Ok? {
      CreateUserPreservesWellFormed(s, email, password, None, salt);
      PromotePreservesWellFormed(r1.value.0, r1.value.1);
    }
  }

  /** A store of two distinct, normalized, active, ordinary users and no tokens is well formed. */
  lemma TwoUserStoreWellFormed(u0: User, u1: User)
    requires u0.email != u1.email && IsNormalized(u0.email) && IsNormalized(u1.email)
    requires u0.isActive && u1.isActive && SuperuserIsStaff(u0) && SuperuserIsStaff(u1)
    ensures WellFormed(Store([u0, u1], []))
  {
    var users := [u0, u1];
    assert forall i :: 0 <= i < |users| ==> users[i] == u0 || users[i] == u1;
  }

  /** In a well-formed store no two users share an email even after normalization. */
  lemma NormalizedEmailsUnique(s: Store, i: nat, j: nat)
    requires WellFormed(s) && i < |s.users| && j < |s.users|
    requires NormalizeEmail(s.users[i].email) == NormalizeEmail(s.users[j].email)
    ensures i == j
  {
  }

  /**
    Django's `authenticate` with the default model backend: the user whose
    email (the USERNAME_FIELD) equals `email` exactly, provided the
    password checks against the stored hash.
   */
  function Authenticate(users: seq<User>, email: string, password: string): (r: Option<nat>)
    ensures r.Some? ==> r.value < |users| && users[r.value].email == email
                        && CheckPassword(password, users[r.value].password)
    ensures UniqueEmails(users) ==>
              (r.None? <==> forall i :: 0 <= i < |users| && users[i].email == email
                                        ==> !CheckPassword(password, users[i].password))
  {
    match FindByEmail(users, email)
    case None => None
    case Some(id) => if CheckPassword(password, users[id].password) then Some(id) else None
  }
}

=== FILE: passwords.dfy ===
/**
  Django's password storage (`set_password`, `check_password`). The real
  hashing algorithm is replaced by a stand-in digest that keeps the one
  property the account code relies on: a salted value verifies against the
  raw password it was made from and against no other. The salt is the
  random input of each hashing call and is passed in.
 */
module Passwords {
  import opened Results

  /** What the `password` column holds; it has no slot for the raw password. */
  datatype Password =
      /** `set_password(None)`: the account has no usable password. */
    | Unusable
      /** A salted stand-in digest of the raw password. */
    | Salted(salt: nat, digest: seq<int>)

  /** Stand-in for the hashing algorithm. */
  function Digest(salt: nat, raw: string): (d: seq<int>)
    ensures |d| == |raw|
  {
    seq(|raw|, i requires 0 <= i < |raw| => raw[i] as int + salt * (i + 1))
  }

  /** Under one salt, different raw passwords have different digests. */
  lemma DigestInjective(salt: nat, a: string, b: string)
    requires Digest(salt, a) == Digest(salt, b)
    ensures a == b
  {
    forall i | 0 <= i < |a|
      ensures a[i] == b[i]
    {
      assert Digest(salt, a)[i] == Digest(salt, b)[i];
    }
  }

  /** `check_password`: false for an unusable password, otherwise re-digest and compare. */
  function CheckPassword(raw: string, stored: Password): (ok: bool)
    ensures stored.Unusable? ==> !ok
  {
    match stored
    case Unusable => false
    case Salted(salt, digest) => Digest(salt, raw) == digest
  }

  /**
    `make_password` as `set_password` uses it: `None` gives an unusable
    password; any string, the empty one included, is digested. The result
    verifies against exactly the raw password it was made from.
   */
  function MakePassword(salt: nat, raw: Option<string>): (p: Password)
    ensures p.Unusable? <==> raw.None?
    ensures forall candidate :: CheckPassword(candidate, p) <==> raw == Some(candidate)
  {
    match raw
    case None => Unusable
    case Some(r) =>
      assert forall candidate :: CheckPassword(candidate, Salted(salt, Digest(salt, r))) ==> candidate == r by {
        forall candidate | CheckPassword(candidate, Salted(salt, Digest(salt, r)))
          ensures candidate == r
        {
          DigestInjective(salt, candidate, r);
        }
      }
      Salted(salt, Digest(salt, r))
  }
}

=== FILE: results.dfy ===
/**
  Optional values and the failure-carrying result type shared by every layer
  of the user-account model, together with the error kinds the service can
  report.
 */
module Results {

  /** A value that may be absent: an omitted request field, a missing row. */
  datatype Option<+T> = None | Some(value: T) {

    /** The value, or `default` when absent. */
    function GetOr(default: T): T {
      match this
      case Some(v) => v
      case None => default
    }
  }

  /** The writable fields of the user serializer. */
  datatype Field = Email | Password | Name

  /** Every way a request can fail. */
  datatype Error =
      /** `create_user` was called with a falsy email (a ValueError). */
    | MissingEmail
      /** Serializer field validation failed; names every rejected field. */
    | Invalid(fields: set<Field>)
      /** A unique constraint of the database refused a row (an IntegrityError). */
    | Conflict
      /** Login failed; one message whatever the cause. */
    | BadCredentials
      /** The request carries no valid token. */
    | NotAuthenticated

  /** Either a value or the error that prevented it. */
  datatype Result<+T> = Ok(value: T) | Err(error: Error)
}

=== FILE: serializers.dfy ===
/**
  `UserSerializer` and `AuthTokenSerializer`: field validation of incoming
  user data, creation through `create_user`, the partial-update rule that
  handles the password apart from the other fields, the write-only
  representation, and the login check.
 */
module Serializers {
  import opened Results
  import opened Tables
  import opened Text
  import opened Emails
  import opened Passwords
  import opened Models

  /**
    The validation the serializer framework derives for a string field.
    Every field in this service is required and rejects blank input;
    `trim` strips surrounding whitespace before the length checks.
   */
  datatype CharRule = CharRule(trim: bool, minLength: nat, maxLength: Option<nat>)

  /** `User.email`: `max_length=255`. */
  const EmailRule := CharRule(true, 0, Some(255))
  /** `User.password`: `min_length=5`, and `max_length=128` from the base user model. */
  const PasswordRule := CharRule(true, 5, Some(128))
  /** `User.name`: `max_length=255`. */
  const NameRule := CharRule(true, 0, Some(255))
  /** `AuthTokenSerializer.email`: a plain `CharField`. */
  const LoginEmailRule := CharRule(true, 0, None)
  /** `AuthTokenSerializer.password`: `trim_whitespace=False`. */
  const LoginPasswordRule := CharRule(false, 0, None)

  /** The value a rule hands to its length checks. */
  function Trimmed(rule: CharRule, raw: string): (value: string) {
    if rule.trim then Strip(raw) else raw
  }

  /** The validated value of a submitted string, or `None` when the rule rejects it. */
  function CleanChars(rule: CharRule, raw: string): (r: Option<string>)
    ensures r.Some? <==> && Trimmed(rule, raw) != ""
                         && rule.minLength <= |Trimmed(rule, raw)|
                         && (rule.maxLength.Some? ==> |Trimmed(rule, raw)| <= rule.maxLength.value)
    ensures r.Some? ==> r.value == Trimmed(rule, raw) && (rule.trim ==> Stripped(r.value))
  {
    if raw == "" || (rule.trim && Strip(raw) == "") then None
    else
      var value := Trimmed(rule, raw);
      if |value| < rule.minLength then None
      else if rule.maxLength.Some? && |value| > rule.maxLength.value then None
      else Some(value)
  }

  /** The submitted (or validated) writable fields of a user; `None` is an omitted field. */
  datatype UserData = UserData(email: Option<string>, password: Option<string>, name: Option<string>)

  /** The outcome of one field's validation. */
  datatype Checked = Absent | Valid(value: string) | Rejected {
    function ToOption(): (r: Option<string>)
      ensures r.Some? <==> Valid?
      ensures Valid? ==> r.value == value
    {
      if Valid? then Some(value) else None
    }
  }

  /** One field: required unless the update is partial, and then cleaned by its rule. */
  function CheckField(v: Option<string>, rule: CharRule, partial: bool): (r: Checked)
    ensures r.Absent? <==> v.None? && partial
    ensures r.Valid? <==> v.Some? && CleanChars(rule, v.value).Some?
    ensures r.Valid? ==> Some(r.value) == CleanChars(rule, v.value)
  {
    match v
    case None => if partial then Absent else Rejected
    case Some(raw) =>
      match CleanChars(rule, raw)
      case None => Rejected
      case Some(value) => Valid(value)
  }

  /** Whether the field validation of `v` fails. */
  predicate FieldRejects(v: Option<string>, rule: CharRule, partial: bool) {
    CheckField(v, rule, partial).Rejected?
  }

  /** The unique validator on `email`: another user than `instance` already has exactly this email. */
  predicate EmailTakenByOther(users: seq<User>, email: string, instance: Option<nat>) {
    exists j :: 0 <= j < |users| && users[j].email == email && instance != Some(j)
  }

  /** Email validation: its field rule, then the unique validator on the cleaned value. */
  function CheckEmail(s: Store, v: Option<string>, partial: bool, instance: Option<nat>): (r: Checked)
    ensures r.Absent? <==> v.None? && partial
    ensures r.Valid? <==> CheckField(v, EmailRule, partial).Valid?
                          && !EmailTakenByOther(s.users, CheckField(v, EmailRule, partial).value, instance)
    ensures r.Valid? ==> r == CheckField(v, EmailRule, partial)
  {
    match CheckField(v, EmailRule, partial)
    case Valid(value) => if EmailTakenByOther(s.users, value, instance) then Rejected else Valid(value)
    case other => other
  }

  /** The fields named by a validation error, given which of them failed. */
  function FailedFields(email: bool, password: bool, name: bool): (f: set<Field>)
    ensures Email in f <==> email
    ensures Password in f <==> password
    ensures Name in f <==> name
  {
    (if email then {Email} else {}) + (if password then {Password} else {}) + (if name then {Name} else {})
  }

  /**
    `UserSerializer.is_valid`: validate every field, collect the fields that
    failed, and on success return the cleaned data. `instance` is the user
    being updated, `None` on creation.
   */
  function ValidateUser(s: Store, data: UserData, partial: bool, instance: Option<nat>): (r: Result<UserData>)
    ensures r.Err? <==> CheckEmail(s, data.email, partial, instance).Rejected?
                        || FieldRejects(data.password, PasswordRule, partial)
                        || FieldRejects(data.name, NameRule, partial)
    ensures r.Err? ==> r.error.Invalid?
    ensures r.Err? ==> (Email in r.error.fields <==> CheckEmail(s, data.email, partial, instance).Rejected?)
    ensures r.Err? ==> (Password in r.error.fields <==> FieldRejects(data.password, PasswordRule, partial))
    ensures r.Err? ==> (Name in r.error.fields <==> FieldRejects(data.name, NameRule, partial))
    ensures r.Ok? && !partial ==> r.value.email.Some? && r.value.password.Some? && r.value.name.Some?
  {
    var e := CheckEmail(s, data.email, partial, instance);
    var p := CheckField(data.password, PasswordRule, partial);
    var n := CheckField(data.name, NameRule, partial);
    if e.Rejected? || p.Rejected? || n.Rejected? then Err(Invalid(FailedFields(e.Rejected?, p.Rejected?, n.Rejected?)))
    else Ok(UserData(e.ToOption(), p.ToOption(), n.ToOption()))
  }

  /** Validated data holds exactly the submitted fields, each cleaned by its rule. */
  lemma ValidatedDataIsClean(s: Store, data: UserData, partial: bool, instance: Option<nat>)
    requires ValidateUser(s, data, partial, instance).Ok?
    ensures var v := ValidateUser(s, data, partial, instance).value;
            && (v.email.None? <==> data.email.None?)
            && (v.password.None? <==> data.password.None?)
            && (v.name.None? <==> data.name.None?)
            && (data.email.Some? ==> v.email == CleanChars(EmailRule, data.email.value)
                                     && !EmailTakenByOther(s.users, v.email.value, instance))
            && (data.password.Some? ==> v.password == CleanChars(PasswordRule, data.password.value))
            && (data.name.Some? ==> v.name == CleanChars(NameRule, data.name.value))
  {
  }

  /** A registered password is at least five characters long once trimmed. */
  lemma ShortPasswordRejected(s: Store, data: UserData, partial: bool, instance: Option<nat>)
    requires data.password.Some? && |Strip(data.password.value)| < 5
    ensures ValidateUser(s, data, partial, instance).Err?
    ensures Password in ValidateUser(s, data, partial, instance).error.fields
  {
  }

  /**
    `UserSerializer.create`: `create_user(**validated_data)`. The user is
    then found under the normalized email, and its stored password verifies
    against the validated password and nothing else.
   */
  function Create(s: Store, data: UserData, salt: nat): (r: Result<(Store, nat)>)
    requires data.email.Some?
    ensures r.Ok? ==>
              var (s', id) := r.value;
              && id == |s.users| && |s'.users| == id + 1 && s'.tokens == s.tokens
              && FindByEmail(s'.users, NormalizeEmail(data.email.value)) == Some(id)
              && (forall pw :: CheckPassword(pw, s'.users[id].password) <==> data.password == Some(pw))
              && s'.users[id].name == data.name.GetOr("")
              && s'.users[..id] == s.users
              && s'.users[id].isActive && !s'.users[id].isStaff && !s'.users[id].isSuperuser
    ensures r.Err? <==> data.email.value == "" || FindByEmail(s.users, NormalizeEmail(data.email.value)).Some?
    ensures r.Err? ==> r.error == (if data.email.value == "" then MissingEmail else Conflict)
  {
    var r := CreateUser(s, data.email.value, data.password, data.name, salt);
    if r.Ok? then
      var (s', id) := r.value;
      assert s'.users == s.users + [s'.users[id]];
      FindAppended(s.users, s'.users[id], (u: User) => u.email == NormalizeEmail(data.email.value));
      r
    else r
  }

  /**
    The save performed by `update`: every given field other than the
    password is written (the email as `email`), then a non-empty password is
    hashed and stored. The unique constraint refuses an email another user
    already has.
   */
  function SaveUpdate(s: Store, id: nat, data: UserData, email: string, salt: nat): (r: Result<Store>)
    requires id < |s.users|
    ensures r.Err? <==> exists j :: 0 <= j < |s.users| && j != id && s.users[j].email == email
    ensures r.Err? ==> r.error == Conflict
    ensures r.Ok? ==> |r.value.users| == |s.users| && r.value.tokens == s.tokens
    ensures r.Ok? ==> forall j :: 0 <= j < |s.users| && j != id ==> r.value.users[j] == s.users[j]
    ensures r.Ok? ==>
              var (u, u') := (s.users[id], r.value.users[id]);
              && u'.email == email && u'.name == data.name.GetOr(u.name)
              && ((data.password.None? || data.password == Some("")) ==> u'.password == u.password)
              && (data.password.Some? && data.password.value != "" ==>
                    forall pw :: CheckPassword(pw, u'.password) <==> pw == data.password.value)
              && u'.isActive == u.isActive && u'.isStaff == u.isStaff && u'.isSuperuser == u.isSuperuser
  {
    if exists j :: 0 <= j < |s.users| && j != id && s.users[j].email == email then Err(Conflict)
    else
      var u := s.users[id];
      var written := u.(email := email, name := data.name.GetOr(u.name));
      var saved := if data.password.Some? && data.password.value != ""
                   then written.(password := MakePassword(salt, data.password))
                   else written;
      Ok(s.(users := s.users[id := saved]))
  }

  /**
    `UserSerializer.update` as written: the inherited update assigns the
    email as submitted, without `normalize_email`.
   */
  function UpdateAsWritten(s: Store, id: nat, data: UserData, salt: nat): (r: Result<Store>)
    requires id < |s.users|
    ensures data.email.Some? && EmailTakenByOther(s.users, data.email.value, Some(id)) ==> r.Err?
    ensures UniqueEmails(s.users) ==>
              (r.Err? <==> data.email.Some? && EmailTakenByOther(s.users, data.email.value, Some(id)))
    ensures r.Err? ==> r.error == Conflict
    ensures r.Ok? ==> |r.value.users| == |s.users| && r.value.tokens == s.tokens
    ensures r.Ok? ==>
              var (u, u') := (s.users[id], r.value.users[id]);
              && (forall j :: 0 <= j < |s.users| && j != id ==> r.value.users[j] == s.users[j])
              && u'.email == data.email.GetOr(u.email)
              && u'.name == data.name.GetOr(u.name)
              && ((data.password.None? || data.password == Some("")) ==> u'.password == u.password)
              && (data.password.Some? && data.password.value != "" ==>
                    forall pw :: CheckPassword(pw, u'.password) <==> pw == data.password.value)
              && u'.isActive == u.isActive && u'.isStaff == u.isStaff && u'.isSuperuser == u.isSuperuser
  {
    SaveUpdate(s, id, data, data.email.GetOr(s.users[id].email), salt)
  }

  /**
    The update as written keeps the constraints the program maintains:
    emails stay unique exactly, users active, superusers staff, tokens
    consistent. Only normal form, and with it uniqueness after
    normalization, can be lost.
   */
  lemma UpdateAsWrittenKeepsConstraints(s: Store, id: nat, data: UserData, salt: nat)
    requires ConstraintsHold(s) && id < |s.users|
    ensures var r := UpdateAsWritten(s, id, data, salt);
            r.Ok? ==> ConstraintsHold(r.value)
  {
    var r := UpdateAsWritten(s, id, data, salt);
    if r.Ok? {
      var s' := r.value;
      var email := data.email.GetOr(s.users[id].email);
      assert forall i :: 0 <= i < |s'.users| ==> s'.users[i].email == if i == id then email else s.users[i].email;
      assert forall i :: 0 <= i < |s'.users| ==> SuperuserIsStaff(s'.users[i]) && s'.users[i].isActive;
    }
  }

  /** Two users, `a@b.com` and `c@d.com`. */
  const TwoUsers := Store([User("a@b.com", Unusable, "A", true, false, false),
                           User("c@d.com", Unusable, "C", true, false, false)], [])

  /** A PATCH of the email to `a@B.com`. */
  const MixedCasePatch := UserData(Some("a@B.com"), None, None)

  /** `a@b.com` is in normal form. */
  lemma FirstEmailNormalized()
    ensures IsNormalized("a@b.com")
  {
    var domain := "b.com";
    assert !IsSpace('a') && !IsSpace('m');
    assert "a@b.com" == "a" + "@" + domain;
    NormalizeJoin("a", domain);
    assert Lower(domain) == domain;
  }

  /** `c@d.com` is in normal form. */
  lemma SecondEmailNormalized()
    ensures IsNormalized("c@d.com")
  {
    var domain := "d.com";
    assert !IsSpace('c') && !IsSpace('m');
    assert "c@d.com" == "c" + "@" + domain;
    NormalizeJoin("c", domain);
    assert Lower(domain) == domain;
  }

  /** The two-user store is one the service can hold. */
  lemma TwoUsersWellFormed()
    ensures WellFormed(TwoUsers)
  {
    FirstEmailNormalized();
    SecondEmailNormalized();
    TwoUserStoreWellFormed(TwoUsers.users[0], TwoUsers.users[1]);
  }

  /** The unique validator compares exactly, so the second user's PATCH to `a@B.com` validates. */
  lemma MixedCasePatchValidates()
    ensures ValidateUser(TwoUsers, MixedCasePatch, true, Some(1)) == Ok(MixedCasePatch)
  {
    assert !IsSpace('a') && !IsSpace('m');
    StripOfStripped("a@B.com");
    assert CleanChars(EmailRule, "a@B.com") == Some("a@B.com");
    assert !EmailTakenByOther(TwoUsers.users, "a@B.com", Some(1));
  }

  /**
    The inherited update stores a PATCHed email without normalizing it, so
    after a request that passes validation two users share a normalized
    email.
   */
  lemma UpdateAsWrittenBreaksNormalizedUniqueness()
    ensures WellFormed(TwoUsers)
    ensures ValidateUser(TwoUsers, MixedCasePatch, true, Some(1)) == Ok(MixedCasePatch)
    ensures UpdateAsWritten(TwoUsers, 1, MixedCasePatch, 0).Ok?
    ensures var s' := UpdateAsWritten(TwoUsers, 1, MixedCasePatch, 0).value;
            && NormalizeEmail(s'.users[0].email) == NormalizeEmail(s'.users[1].email)
            && !WellFormed(s')
  {
    TwoUsersWellFormed();
    MixedCasePatchValidates();
    MixedCasePatchStored();
    UpperDomainFolded();
    FirstEmailNormalized();
    MixedCaseNotNormalized();
  }

  /** The inherited update saves the second user's PATCH with the email exactly as submitted. */
  lemma MixedCasePatchStored()
    ensures UpdateAsWritten(TwoUsers, 1, MixedCasePatch, 0).Ok?
    ensures var s' := UpdateAsWritten(TwoUsers, 1, MixedCasePatch, 0).value;
            && |s'.users| == 2
            && s'.users[0].email == "a@b.com" && s'.users[1].email == "a@B.com"
  {
    var s := TwoUsers;
    assert UpdateAsWritten(s, 1, MixedCasePatch, 0) == SaveUpdate(s, 1, MixedCasePatch, "a@B.com", 0);
    assert s.users[0].email != "a@B.com" by {
      assert s.users[0].email[2] != "a@B.com"[2];
    }
  }

  /** `a@B.com` is not in normal form, so no well-formed store holds it. */
  lemma MixedCaseNotNormalized()
    ensures !IsNormalized("a@B.com")
  {
    UpperDomainFolded();
    assert "a@b.com"[2] != "a@B.com"[2];
  }

  /** The normalizing `Update` refuses the request the inherited update accepts. */
  lemma UpdateRefusesMixedCaseDuplicate()
    ensures Update(TwoUsers, 1, MixedCasePatch, 0) == Err(Conflict)
  {
    UpperDomainFolded();
    assert EmailTakenByOther(TwoUsers.users, NormalizeEmail("a@B.com"), Some(1)) by {
      assert TwoUsers.users[0].email == "a@b.com";
    }
  }

  /** The email column value `update` stores: the normalized submission, or the current one. */
  function UpdatedEmail(current: string, submitted: Option<string>): (email: string) {
    match submitted
    case Some(e) => NormalizeEmail(e)
    case None => current
  }

  /**
    `UserSerializer.update`, with the email normalized as `create_user`
    does: fields absent from the data keep their value, the password is
    re-hashed only when a non-empty one is given, and no other user changes.
   */
  function Update(s: Store, id: nat, data: UserData, salt: nat): (r: Result<Store>)
    requires id < |s.users|
    ensures data.email.Some? && EmailTakenByOther(s.users, NormalizeEmail(data.email.value), Some(id)) ==> r.Err?
    ensures UniqueEmails(s.users) ==>
              (r.Err? <==> data.email.Some? && EmailTakenByOther(s.users, NormalizeEmail(data.email.value), Some(id)))
    ensures r.Err? ==> r.error == Conflict
    ensures r.Ok? ==> |r.value.users| == |s.users| && r.value.tokens == s.tokens
    ensures r.Ok? ==>
              var (u, u') := (s.users[id], r.value.users[id]);
              && (forall j :: 0 <= j < |s.users| && j != id ==> r.value.users[j] == s.users[j])
              && (data.email.None? ==> u'.email == u.email)
              && (data.email.Some? ==> u'.email == NormalizeEmail(data.email.value))
              && u'.name == data.name.GetOr(u.name)
              && ((data.password.None? || data.password == Some("")) ==> u'.password == u.password)
              && (data.password.Some? && data.password.value != "" ==>
                    forall pw :: CheckPassword(pw, u'.password) <==> pw == data.password.value)
              && u'.isActive == u.isActive && u'.isStaff == u.isStaff && u'.isSuperuser == u.isSuperuser
  {
    SaveUpdate(s, id, data, UpdatedEmail(s.users[id].email, data.email), salt)
  }

  /** Saving a normalized email that no other user has keeps the store invariant. */
  lemma SaveUpdatePreservesWellFormed(s: Store, id: nat, data: UserData, email: string, salt: nat)
    requires WellFormed(s) && id < |s.users| && IsNormalized(email)
    ensures var r := SaveUpdate(s, id, data, email, salt);
            r.Ok? ==> WellFormed(r.value)
  {
    var r := SaveUpdate(s, id, data, email, salt);
    if r.Ok? {
      var s' := r.value;
      assert forall i :: 0 <= i < |s'.users| ==> s'.users[i].email == if i == id then email else s.users[i].email;
      assert UniqueEmails(s'.users);
      assert forall i :: 0 <= i < |s'.users| ==> SuperuserIsStaff(s'.users[i]) && s'.users[i].isActive;
    }
  }

  /** Updating a user keeps the store invariant. */
  lemma UpdatePreservesWellFormed(s: Store, id: nat, data: UserData, salt: nat)
    requires WellFormed(s) && id < |s.users|
    ensures var r := Update(s, id, data, salt);
            r.Ok? ==> WellFormed(r.value)
  {
    var r := Update(s, id, data, salt);
    if r.Ok? {
      var email := UpdatedEmail(s.users[id].email, data.email);
      if data.email.Some? {
        NormalizeIdempotent(data.email.value);
      }
      SaveUpdatePreservesWellFormed(s, id, data, email, salt);
    }
  }

  /** What the serializer returns: `password` is write-only, so only email and name. */
  datatype Representation = Representation(email: string, name: string)

  /** The serialized form of a user. */
  function Represent(u: User): (r: Representation)
    ensures r.email == u.email && r.name == u.name
  {
    Representation(u.email, u.name)
  }

  /** The representation does not depend on the stored password. */
  lemma RepresentationHidesPassword(u: User, p: Password)
    ensures Represent(u.(password := p)) == Represent(u)
  {
  }

  /** Both login fields pass their field validation. */
  predicate LoginFieldsValid(email: Option<string>, password: Option<string>) {
    !FieldRejects(email, LoginEmailRule, false) && !FieldRejects(password, LoginPasswordRule, false)
  }

  /**
    `AuthTokenSerializer.validate`: after field validation, authenticate
    with the trimmed email and the untrimmed password. Every failed
    authentication yields the same error; success yields the user.
   */
  function ValidateCredentials(s: Store, email: Option<string>, password: Option<string>): (r: Result<nat>)
    ensures !LoginFieldsValid(email, password) <==> r.Err? && r.error.Invalid?
    ensures r.Err? && LoginFieldsValid(email, password) ==> r.error == BadCredentials
    ensures r.Ok? ==> && email.Some? && password.Some? && r.value < |s.users|
                      && s.users[r.value].email == Strip(email.value)
                      && CheckPassword(password.value, s.users[r.value].password)
    ensures UniqueEmails(s.users) && LoginFieldsValid(email, password) ==>
              (r.Err? <==> forall i :: 0 <= i < |s.users| && s.users[i].email == Strip(email.value)
                                       ==> !CheckPassword(password.value, s.users[i].password))
  {
    var e := CheckField(email, LoginEmailRule, false);
    var p := CheckField(password, LoginPasswordRule, false);
    if e.Rejected? || p.Rejected? then
      Err(Invalid((if e.Rejected? then {Email} else {}) + (if p.Rejected? then {Password} else {})))
    else
      match Authenticate(s.users, e.value, p.value)
      case None => Err(BadCredentials)
      case Some(id) => Ok(id)
  }

  /** An unknown email and a wrong password are reported identically. */
  lemma LoginFailuresAlike(s: Store, known: string, wrong: string, unknown: string, any: string)
    requires UniqueEmails(s.users)
    requires LoginFieldsValid(Some(known), Some(wrong)) && LoginFieldsValid(Some(unknown), Some(any))
    requires forall i :: 0 <= i < |s.users| ==> s.users[i].email != Strip(unknown)
    requires forall i :: 0 <= i < |s.users| && s.users[i].email == Strip(known)
                         ==> !CheckPassword(wrong, s.users[i].password)
    ensures ValidateCredentials(s, Some(known), Some(wrong)) == ValidateCredentials(s, Some(unknown), Some(any))
            == Err(BadCredentials)
  {
  }
}

=== FILE: tables.dfy ===
/**
  Database tables are modelled as sequences of rows; a row's primary key is
  its position. `Find` is the single lookup used for every query.
 */
module Tables {
  import opened Results

  /** The position of the last row satisfying `matches`, if any. */
  function Find<T>(rows: seq<T>, matches: T -> bool): (r: Option<nat>)
    ensures r.Some? ==> r.value < |rows| && matches(rows[r.value])
    ensures r.None? ==> forall i :: 0 <= i < |rows| ==> !matches(rows[i])
  {
    if |rows| == 0 then None
    else if matches(rows[|rows| - 1]) then Some(|rows| - 1)
    else Find(rows[..|rows| - 1], matches)
  }

  /** When exactly one row matches, `Find` returns that row. */
  lemma FindUnique<T>(rows: seq<T>, matches: T -> bool, i: nat)
    requires i < |rows| && matches(rows[i])
    requires forall j :: 0 <= j < |rows| && matches(rows[j]) ==> j == i
    ensures Find(rows, matches) == Some(i)
  {
  }

  /** Appending a matching row makes it the row `Find` returns. */
  lemma FindAppended<T>(rows: seq<T>, row: T, matches: T -> bool)
    requires matches(row)
    ensures Find(rows + [row], matches) == Some(|rows|)
  {
  }
}

=== FILE: text.dfy ===
/**
  The Python string operations the account code relies on: `str.strip()`,
  `str.lower()` and `str.rsplit(sep, 1)`.
 */
module Text {
  import opened Results

  /** Python's `str.isspace()` for one character. */
  predicate IsSpace(c: char) {
    || ('\t' <= c <= '\r')
    || ('\U{1C}' <= c <= '\U{1F}')
    || c == ' ' || c == '\U{85}' || c == '\U{A0}' || c == '\U{1680}'
    || ('\U{2000}' <= c <= '\U{200A}')
    || c == '\U{2028}' || c == '\U{2029}' || c == '\U{202F}' || c == '\U{205F}'
    || c == '\U{3000}'
  }

  /** Number of leading whitespace characters. */
  function LeadingSpaces(s: string): (n: nat)
    ensures n <= |s|
    ensures forall i :: 0 <= i < n ==> IsSpace(s[i])
    ensures n < |s| ==> !IsSpace(s[n])
  {
    if |s| == 0 || !IsSpace(s[0]) then 0 else 1 + LeadingSpaces(s[1..])
  }

  /** Number of trailing whitespace characters. */
  function TrailingSpaces(s: string): (n: nat)
    ensures n <= |s|
    ensures forall i :: |s| - n <= i < |s| ==> IsSpace(s[i])
    ensures n < |s| ==> !IsSpace(s[|s| - n - 1])
  {
    if |s| == 0 || !IsSpace(s[|s| - 1]) then 0 else 1 + TrailingSpaces(s[..|s| - 1])
  }

  /** No whitespace at either end. */
  predicate Stripped(s: string) {
    |s| == 0 || (!IsSpace(s[0]) && !IsSpace(s[|s| - 1]))
  }

  /** Python's `str.strip()`: the slice left after removing whitespace at both ends. */
  function Strip(s: string): (r: string)
    ensures Stripped(r)
  {
    var i := LeadingSpaces(s);
    var t := s[i..];
    s[i..i + |t| - TrailingSpaces(t)]
  }

  /** `Strip` removes whitespace and nothing else: the result is a slice with only whitespace around it. */
  lemma StripRemovesOnlySpaces(s: string)
    ensures exists i, j :: 0 <= i <= j <= |s| && Strip(s) == s[i..j]
                           && (forall k :: 0 <= k < i ==> IsSpace(s[k]))
                           && (forall k :: j <= k < |s| ==> IsSpace(s[k]))
  {
    var i := LeadingSpaces(s);
    var t := s[i..];
    var j := i + |t| - TrailingSpaces(t);
    assert Strip(s) == s[i..j];
    assert forall k :: j <= k < |s| ==> s[k] == t[k - i];
  }

  /** A string with no whitespace at either end is its own strip. */
  lemma StripOfStripped(s: string)
    requires Stripped(s)
    ensures Strip(s) == s
  {
    if |s| > 0 {
      assert LeadingSpaces(s) == 0;
      assert TrailingSpaces(s) == 0;
    }
  }

  /** `str.lower()` on one character; only ASCII letters are mapped. */
  function LowerChar(c: char): (r: char)
    ensures r == c || ('A' <= c <= 'Z' && 'a' <= r <= 'z')
    ensures IsSpace(r) <==> IsSpace(c)
    ensures r == '@' <==> c == '@'
  {
    if 'A' <= c <= 'Z' then (c as int - 'A' as int + 'a' as int) as char else c
  }

  /** `str.lower()`: every character lowered in place. */
  function Lower(s: string): (r: string)
    ensures |r| == |s|
    ensures forall i :: 0 <= i < |s| ==> r[i] == LowerChar(s[i])
  {
    seq(|s|, i requires 0 <= i < |s| => LowerChar(s[i]))
  }

  /** Lowering twice is lowering once. */
  lemma LowerIdempotent(s: string)
    ensures Lower(Lower(s)) == Lower(s)
  {
  }

  /** `s.rsplit(c, 1)` when it yields two parts: everything before the last `c`, and after it. */
  function RSplit(s: string, c: char): (r: Option<(string, string)>)
    ensures r.None? <==> c !in s
    ensures r.Some? ==> s == r.value.0 + [c] + r.value.1 && c !in r.value.1
  {
    if |s| == 0 then None
    else if s[|s| - 1] == c then Some((s[..|s| - 1], ""))
    else
      match RSplit(s[..|s| - 1], c)
      case None => None
      case Some((a, b)) =>
        assert s == s[..|s| - 1] + [s[|s| - 1]];
        Some((a, b + [s[|s| - 1]]))
  }

  /** Splitting a join at its last separator gives the parts back. */
  lemma {:induction false} RSplitJoin(a: string, c: char, b: string)
    requires c !in b
    ensures RSplit(a + [c] + b, c) == Some((a, b))
  {
    var s := a + [c] + b;
    if |b| == 0 {
      assert s[..|s| - 1] == a;
    } else {
      var b' := b[..|b| - 1];
      assert s[..|s| - 1] == a + [c] + b';
      RSplitJoin(a, c, b');
      assert b' + [s[|s| - 1]] == b;
    }
  }
}

=== FILE: tokens.dfy ===
/**
  The auth token table behind `ObtainAuthToken` and `TokenAuthentication`:
  one bearer key per user, created on the first successful login and reused
  afterwards. Key generation is random, so the freshly generated key is a
  parameter.
 */
module Tokens {
  import opened Results
  import opened Tables
  import opened Models

  /** The token row owned by user `id`, if any. */
  function TokenOf(tokens: seq<Token>, id: nat): (r: Option<nat>)
    ensures r.Some? ==> r.value < |tokens| && tokens[r.value].user == id
    ensures r.None? ==> forall t :: 0 <= t < |tokens| ==> tokens[t].user != id
  {
    Find(tokens, (t: Token) => t.user == id)
  }

  /** The user a bearer key belongs to; `None` for an unknown key. */
  function ResolveToken(s: Store, key: string): (r: Option<nat>)
    ensures r.Some? ==> exists t :: 0 <= t < |s.tokens| && s.tokens[t].key == key && s.tokens[t].user == r.value
    ensures r.None? ==> forall t :: 0 <= t < |s.tokens| ==> s.tokens[t].key != key
  {
    match Find(s.tokens, (t: Token) => t.key == key)
    case None => None
    case Some(t) => Some(s.tokens[t].user)
  }

  /**
    `Token.objects.get_or_create(user=user)`: the user's existing key, or a
    new row with `freshKey`. A fresh key that is already some other row's
    key violates the key's unique constraint.
   */
  function GetOrCreateToken(s: Store, id: nat, freshKey: string): (r: Result<(Store, string)>)
    ensures TokenOf(s.tokens, id).Some? ==>
              r == Ok((s, s.tokens[TokenOf(s.tokens, id).value].key))
    ensures TokenOf(s.tokens, id).None? ==>
              (r.Err? <==> exists t :: 0 <= t < |s.tokens| && s.tokens[t].key == freshKey)
    ensures r.Err? ==> r.error == Conflict
    ensures r.Ok? ==> r.value.0.users == s.users && s.tokens <= r.value.0.tokens
    ensures r.Ok? && TokenOf(s.tokens, id).None? ==>
              r.value == (s.(tokens := s.tokens + [Token(freshKey, id)]), freshKey)
  {
    match TokenOf(s.tokens, id)
    case Some(t) => Ok((s, s.tokens[t].key))
    case None =>
      if Find(s.tokens, (t: Token) => t.key == freshKey).Some? then Err(Conflict)
      else
        var tokens := s.tokens + [Token(freshKey, id)];
        FindAppended(s.tokens, Token(freshKey, id), (t: Token) => t.key == freshKey);
        Ok((s.(tokens := tokens), freshKey))
  }

  /** Issuing a key keeps the token table consistent. */
  lemma GetOrCreatePreservesWellFormed(s: Store, id: nat, freshKey: string)
    requires WellFormed(s) && id < |s.users|
    ensures var r := GetOrCreateToken(s, id, freshKey);
            r.Ok? ==> WellFormed(r.value.0)
  {
  }

  /** The key handed out resolves to the user it was issued for. */
  lemma IssuedKeyResolves(s: Store, id: nat, freshKey: string)
    requires TokensWellFormed(s.users, s.tokens)
    ensures var r := GetOrCreateToken(s, id, freshKey);
            r.Ok? ==> ResolveToken(r.value.0, r.value.1) == Some(id)
  {
    var r := GetOrCreateToken(s, id, freshKey);
    if r.Ok? {
      match TokenOf(s.tokens, id)
      case Some(t) =>
        FindUnique(s.tokens, (t': Token) => t'.key == s.tokens[t].key, t);
      case None =>
        FindAppended(s.tokens, Token(freshKey, id), (t': Token) => t'.key == freshKey);
    }
  }

  /** Asking twice yields the same key, and the second request changes nothing. */
  lemma IssueTwiceSameKey(s: Store, id: nat, key1: string, key2: string)
    requires GetOrCreateToken(s, id, key1).Ok?
    ensures var (s1, k) := GetOrCreateToken(s, id, key1).value;
            GetOrCreateToken(s1, id, key2) == Ok((s1, k))
  {
    if TokenOf(s.tokens, id).None? {
      FindAppended(s.tokens, Token(key1, id), (t: Token) => t.user == id);
    }
  }
}

=== FILE: views.dfy ===
/**
  The three endpoints: registration (`CreateUserView`), login
  (`CreateTokenView`) and the authenticated user's own profile
  (`ManageUserView`, GET and PUT/PATCH), and the service as a state machine
  over the store. Randomness (salts, token keys) arrives with each request.
 */
module Views {
  import opened Results
  import opened Text
  import opened Emails
  import opened Passwords
  import opened Models
  import opened Tokens
  import opened Serializers

  /**
    `CreateUserView` (POST): `UserSerializer` validation for a creation, then
    `create`. Every field is required, the password is at least five
    characters once trimmed, and the new user is stored under its normalized
    email with a hash of the trimmed password.
   */
  function Register(s: Store, data: UserData, salt: nat): (r: Result<(Store, Representation)>)
    ensures data.email.None? || data.password.None? || data.name.None? ==> r.Err? && r.error.Invalid?
    ensures ValidateUser(s, data, false, None).Err? ==> r == Err(ValidateUser(s, data, false, None).error)
    ensures ValidateUser(s, data, false, None).Ok? ==>
              (r.Ok? <==> FindByEmail(s.users, NormalizeEmail(Strip(data.email.value))).None?)
    ensures r.Err? ==> r.error.Invalid? || r.error == Conflict
    ensures ValidateUser(s, data, false, None).Ok? && r.Err? ==> r.error == Conflict
    ensures data.password.Some? && |Strip(data.password.value)| < 5 ==>
              r.Err? && r.error.Invalid? && Password in r.error.fields
    ensures r.Ok? ==>
              var (s', out) := r.value;
              var id := |s.users|;
              && data.email.Some? && data.password.Some? && data.name.Some?
              && Strip(data.email.value) != "" && |Strip(data.email.value)| <= 255
              && 5 <= |Strip(data.password.value)| <= 128
              && Strip(data.name.value) != "" && |Strip(data.name.value)| <= 255
              && |s'.users| == id + 1 && s'.users[..id] == s.users && s'.tokens == s.tokens
              && FindByEmail(s'.users, NormalizeEmail(Strip(data.email.value))) == Some(id)
              && (forall pw :: CheckPassword(pw, s'.users[id].password) <==> pw == Strip(data.password.value))
              && s'.users[id].name == Strip(data.name.value)
              && s'.users[id].isActive && !s'.users[id].isStaff && !s'.users[id].isSuperuser
              && out == Represent(s'.users[id])
  {
    match ValidateUser(s, data, false, None)
    case Err(e) => Err(e)
    case Ok(v) =>
      ValidatedDataIsClean(s, data, false, None);
      match Create(s, v, salt)
      case Err(e) => Err(e)
      case Ok((s', id)) => Ok((s', Represent(s'.users[id])))
  }

  /**
    `CreateTokenView` (POST): `AuthTokenSerializer` validation, then the
    user's token, created on first use. Failed validation issues no token,
    and logging in never changes the user table.
   */
  function ObtainToken(s: Store, email: Option<string>, password: Option<string>, freshKey: string)
    : (r: Result<(Store, string)>)
    ensures ValidateCredentials(s, email, password).Err? ==> r == Err(ValidateCredentials(s, email, password).error)
    ensures ValidateCredentials(s, email, password).Ok? ==>
              var id := ValidateCredentials(s, email, password).value;
              && (r.Err? <==> TokenOf(s.tokens, id).None? && exists t :: 0 <= t < |s.tokens| && s.tokens[t].key == freshKey)
              && (r.Err? ==> r.error == Conflict)
              && (TokenOf(s.tokens, id).Some? ==> r == Ok((s, s.tokens[TokenOf(s.tokens, id).value].key)))
              && (r.Ok? && TokenOf(s.tokens, id).None? ==>
                    r.value == (s.(tokens := s.tokens + [Token(freshKey, id)]), freshKey))
    ensures r.Ok? ==> r.value.0.users == s.users && s.tokens <= r.value.0.tokens
    ensures r.Ok? && TokensWellFormed(s.users, s.tokens) ==>
              ResolveToken(r.value.0, r.value.1) == Some(ValidateCredentials(s, email, password).value)
  {
    match ValidateCredentials(s, email, password)
    case Err(e) => Err(e)
    case Ok(id) =>
      var r := GetOrCreateToken(s, id, freshKey);
      assert r.Ok? && TokensWellFormed(s.users, s.tokens) ==> ResolveToken(r.value.0, r.value.1) == Some(id) by {
        if TokensWellFormed(s.users, s.tokens) {
          IssuedKeyResolves(s, id, freshKey);
        }
      }
      r
  }

  /**
    `TokenAuthentication` with the `IsAuthenticated` permission: the user
    owning the presented key, or `None` when no key is presented, the key is
    unknown, or its user no longer exists.
   */
  function CurrentUser(s: Store, credential: Option<string>): (r: Option<nat>)
    ensures r.Some? <==> credential.Some? && ResolveToken(s, credential.value).Some?
                         && ResolveToken(s, credential.value).value < |s.users|
    ensures r.Some? ==> r == ResolveToken(s, credential.value)
  {
    match credential
    case None => None
    case Some(key) =>
      match ResolveToken(s, key)
      case None => None
      case Some(id) => if id < |s.users| then Some(id) else None
  }

  /** `ManageUserView` GET: the representation of the authenticated user, never of anyone else. */
  function RetrieveMe(s: Store, credential: Option<string>): (r: Result<Representation>)
    ensures CurrentUser(s, credential).None? <==> r == Err(NotAuthenticated)
    ensures CurrentUser(s, credential).Some? ==> r == Ok(Represent(s.users[CurrentUser(s, credential).value]))
  {
    match CurrentUser(s, credential)
    case None => Err(NotAuthenticated)
    case Some(id) => Ok(Represent(s.users[id]))
  }

  /**
    `ManageUserView` PUT (`partial` false) and PATCH (`partial` true): the
    object is always the authenticated user; the data is validated against
    that user and applied by `update`. No other user changes, and fields
    the request omits keep their values.
   */
  function UpdateMe(s: Store, credential: Option<string>, data: UserData, partial: bool, salt: nat)
    : (r: Result<(Store, Representation)>)
    ensures CurrentUser(s, credential).None? ==> r == Err(NotAuthenticated)
    ensures CurrentUser(s, credential).Some? ==>
              var id := CurrentUser(s, credential).value;
              var v := ValidateUser(s, data, partial, Some(id));
              && (v.Err? ==> r == Err(v.error))
              && (v.Ok? && UniqueEmails(s.users) ==>
                    (r.Ok? <==> data.email.None?
                                || !EmailTakenByOther(s.users, NormalizeEmail(Strip(data.email.value)), Some(id))))
    ensures r.Err? ==> r.error == NotAuthenticated || r.error.Invalid? || r.error == Conflict
    ensures (&& CurrentUser(s, credential).Some?
             && ValidateUser(s, data, partial, Some(CurrentUser(s, credential).value)).Ok?
             && r.Err?) ==> r.error == Conflict
    ensures r.Ok? ==> CurrentUser(s, credential).Some?
    ensures r.Ok? ==> |r.value.0.users| == |s.users| && r.value.0.tokens == s.tokens
    ensures r.Ok? ==>
              var (s', out) := r.value;
              var id := CurrentUser(s, credential).value;
              var (u, u') := (s.users[id], s'.users[id]);
              && (forall j :: 0 <= j < |s.users| && j != id ==> s'.users[j] == s.users[j])
              && out == Represent(u')
              && (data.email.None? ==> u'.email == u.email)
              && (data.email.Some? ==> u'.email == NormalizeEmail(Strip(data.email.value)))
              && (data.name.None? ==> u'.name == u.name)
              && (data.name.Some? ==> u'.name == Strip(data.name.value))
              && (data.password.None? ==> u'.password == u.password)
              && (data.password.Some? ==>
                    forall pw :: CheckPassword(pw, u'.password) <==> pw == Strip(data.password.value))
              && u'.isActive == u.isActive && u'.isStaff == u.isStaff && u'.isSuperuser == u.isSuperuser
  {
    match CurrentUser(s, credential)
    case None => Err(NotAuthenticated)
    case Some(id) =>
      match ValidateUser(s, data, partial, Some(id))
      case Err(e) => Err(e)
      case Ok(v) =>
        ValidatedDataIsClean(s, data, partial, Some(id));
        match Update(s, id, v, salt)
        case Err(e) => Err(e)
        case Ok(s') => Ok((s', Represent(s'.users[id])))
  }

  /**
    Logging in with the credentials just registered succeeds exactly when
    the submitted email is already in normal form and the password has no
    surrounding whitespace: registration stores the normalized email and
    the trimmed password, while login looks the email up exactly and checks
    the password untrimmed.
   */
  lemma RegisterThenLogin(s: Store, data: UserData, salt: nat)
    requires WellFormed(s) && Register(s, data, salt).Ok?
    ensures var s' := Register(s, data, salt).value.0;
            var login := ValidateCredentials(s', data.email, data.password);
            && (login.Ok? <==> IsNormalized(Strip(data.email.value))
                               && Strip(data.password.value) == data.password.value)
            && (login.Ok? ==> login.value == |s.users|)
  {
    var s' := Register(s, data, salt).value.0;
    RegisterPreservesWellFormed(s, data, salt);
    LoginOfStored(s', |s.users|, data.email.value, data.password.value, Strip(data.password.value));
  }

  /**
    Login as a stored user whose email is the normal form of `email` and
    whose password verifies exactly against `registered`: it succeeds, and
    only as that user, exactly when `email` is already normalized once
    stripped and `password` is `registered`.
   */
  lemma LoginOfStored(s: Store, id: nat, email: string, password: string, registered: string)
    requires WellFormed(s) && id < |s.users|
    requires Strip(email) != "" && Strip(password) != ""
    requires s.users[id].email == NormalizeEmail(Strip(email))
    requires forall pw :: CheckPassword(pw, s.users[id].password) <==> pw == registered
    ensures var login := ValidateCredentials(s, Some(email), Some(password));
            && (login.Ok? <==> IsNormalized(Strip(email)) && password == registered)
            && (login.Ok? ==> login.value == id)
  {
    RegisteredFieldsPassLogin(email, password);
    LookupOfRegistered(s.users, id, Strip(email), password, registered);
  }

  /** Registering keeps the store invariant. */
  lemma RegisterPreservesWellFormed(s: Store, data: UserData, salt: nat)
    requires WellFormed(s) && Register(s, data, salt).Ok?
    ensures WellFormed(Register(s, data, salt).value.0)
  {
    var v := ValidateUser(s, data, false, None);
    ValidatedDataIsClean(s, data, false, None);
    CreateUserPreservesWellFormed(s, v.value.email.value, v.value.password, v.value.name, salt);
  }

  /** Logging in keeps the store invariant. */
  lemma ObtainTokenPreservesWellFormed(s: Store, email: Option<string>, password: Option<string>, freshKey: string)
    requires WellFormed(s) && ObtainToken(s, email, password, freshKey).Ok?
    ensures WellFormed(ObtainToken(s, email, password, freshKey).value.0)
  {
    GetOrCreatePreservesWellFormed(s, ValidateCredentials(s, email, password).value, freshKey);
  }

  /** Updating one's own profile keeps the store invariant. */
  lemma UpdateMePreservesWellFormed(s: Store, credential: Option<string>, data: UserData, partial: bool, salt: nat)
    requires WellFormed(s) && UpdateMe(s, credential, data, partial, salt).Ok?
    ensures WellFormed(UpdateMe(s, credential, data, partial, salt).value.0)
  {
    var id := CurrentUser(s, credential).value;
    var v := ValidateUser(s, data, partial, Some(id));
    UpdatePreservesWellFormed(s, id, v.value, salt);
  }

  /** An email and password that registration accepted pass the login form's field validation. */
  lemma RegisteredFieldsPassLogin(email: string, password: string)
    requires Strip(email) != "" && Strip(password) != ""
    ensures LoginFieldsValid(Some(email), Some(password))
  {
  }

  /**
    In a table of unique normalized emails, where user `id` has the
    normal form of `e` and a password that verifies exactly against
    `registered`, the credentials (`e`, `p`) authenticate, and only as
    `id`, exactly when `e` is normalized and `p` is `registered`.
   */
  lemma LookupOfRegistered(users: seq<User>, id: nat, e: string, p: string, registered: string)
    requires UniqueEmails(users) && forall i :: 0 <= i < |users| ==> IsNormalized(users[i].email)
    requires id < |users| && users[id].email == NormalizeEmail(e)
    requires forall pw :: CheckPassword(pw, users[id].password) <==> pw == registered
    ensures (forall i :: 0 <= i < |users| && users[i].email == e ==> !CheckPassword(p, users[i].password))
            <==> !(IsNormalized(e) && p == registered)
    ensures forall i :: 0 <= i < |users| && users[i].email == e && CheckPassword(p, users[i].password) ==> i == id
  {
    if !IsNormalized(e) {
      assert forall i :: 0 <= i < |users| ==> users[i].email != e;
    }
  }

  /** The key a successful login returns opens the profile of the user who logged in. */
  lemma LoginThenRetrieve(s: Store, email: Option<string>, password: Option<string>, freshKey: string)
    requires WellFormed(s) && ObtainToken(s, email, password, freshKey).Ok?
    ensures var (s', key) := ObtainToken(s, email, password, freshKey).value;
            && ValidateCredentials(s, email, password).Ok?
            && RetrieveMe(s', Some(key)) == Ok(Represent(s.users[ValidateCredentials(s, email, password).value]))
  {
  }

  /** A registration of `a@b.com` with password `secret` and name `A`. */
  const Alice := UserData(Some("a@b.com"), Some("secret"), Some("A"))

  /**
    From an empty database, registering, logging in with the same
    credentials and reading the profile with the issued key all succeed,
    and the profile is the one registered.
   */
  lemma RegisterLoginRetrieve(salt: nat, freshKey: string)
    ensures Register(EmptyStore, Alice, salt).Ok?
    ensures var s1 := Register(EmptyStore, Alice, salt).value.0;
            && ObtainToken(s1, Alice.email, Alice.password, freshKey).Ok?
            && var (s2, key) := ObtainToken(s1, Alice.email, Alice.password, freshKey).value;
               RetrieveMe(s2, Some(key)) == Ok(Representation("a@b.com", "A"))
  {
    AliceIsClean();
    AliceRegisters(salt);
    var s1 := Register(EmptyStore, Alice, salt).value.0;
    FirstEmailNormalized();
    RegisterThenLogin(EmptyStore, Alice, salt);
    RegisterPreservesWellFormed(EmptyStore, Alice, salt);
    LoginThenRetrieve(s1, Alice.email, Alice.password, freshKey);
  }

  /** Alice's fields carry no surrounding whitespace. */
  lemma AliceIsClean()
    ensures Strip("a@b.com") == "a@b.com" && Strip("secret") == "secret" && Strip("A") == "A"
  {
    assert !IsSpace('a') && !IsSpace('m') && !IsSpace('s') && !IsSpace('t') && !IsSpace('A');
    StripOfStripped("a@b.com");
    StripOfStripped("secret");
    StripOfStripped("A");
  }

  /** Alice's registration on an empty database succeeds and stores her as entered. */
  lemma AliceRegisters(salt: nat)
    ensures Register(EmptyStore, Alice, salt).Ok?
    ensures Register(EmptyStore, Alice, salt).value.0.users[0].email == NormalizeEmail("a@b.com")
  {
    AliceIsClean();
    assert ValidateUser(EmptyStore, Alice, false, None).Ok?;
  }

  /** A request to the service, with the random inputs its handling draws. */
  datatype Request =
    | RegisterRequest(data: UserData, salt: nat)
    | LoginRequest(email: Option<string>, password: Option<string>, freshKey: string)
    | RetrieveRequest(credential: Option<string>)
    | UpdateRequest(credential: Option<string>, data: UserData, partial: bool, salt: nat)

  /** The service's answer. */
  datatype Response =
    | Created(user: Representation)
    | Issued(token: string)
    | Found(user: Representation)
    | Updated(user: Representation)
    | Failed(error: Error)

  /** One request: the endpoint's answer and the store afterwards; a failed request changes nothing. */
  function Handle(s: Store, req: Request): (out: (Store, Response))
    ensures out.1.Failed? ==> out.0 == s
    ensures req.RetrieveRequest? ==> out.0 == s
    ensures req.LoginRequest? ==> out.0.users == s.users
    ensures req.RegisterRequest? ==> out.0.tokens == s.tokens && s.users <= out.0.users
    ensures req.UpdateRequest? ==> out.0.tokens == s.tokens && |out.0.users| == |s.users|
  {
    match req
    case RegisterRequest(data, salt) =>
      (match Register(s, data, salt)
       case Ok((s', u)) => (s', Created(u))
       case Err(e) => (s, Failed(e)))
    case LoginRequest(email, password, freshKey) =>
      (match ObtainToken(s, email, password, freshKey)
       case Ok((s', key)) => (s', Issued(key))
       case Err(e) => (s, Failed(e)))
    case RetrieveRequest(credential) =>
      (match RetrieveMe(s, credential)
       case Ok(u) => (s, Found(u))
       case Err(e) => (s, Failed(e)))
    case UpdateRequest(credential, data, partial, salt) =>
      (match UpdateMe(s, credential, data, partial, salt)
       case Ok((s', u)) => (s', Updated(u))
       case Err(e) => (s, Failed(e)))
  }

  /** Every request keeps the store invariant. */
  lemma HandlePreservesWellFormed(s: Store, req: Request)
    requires WellFormed(s)
    ensures WellFormed(Handle(s, req).0)
  {
    match req
    case RegisterRequest(data, salt) =>
      if Register(s, data, salt).Ok? {
        RegisterPreservesWellFormed(s, data, salt);
      }
    case LoginRequest(email, password, freshKey) =>
      if ObtainToken(s, email, password, freshKey).Ok? {
        ObtainTokenPreservesWellFormed(s, email, password, freshKey);
      }
    case RetrieveRequest(_) =>
    case UpdateRequest(credential, data, partial, salt) =>
      if UpdateMe(s, credential, data, partial, salt).Ok? {
        UpdateMePreservesWellFormed(s, credential, data, partial, salt);
      }
  }

  /** The store after a sequence of requests. */
  function Run(s: Store, reqs: seq<Request>): (s': Store)
    decreases |reqs|
  {
    if |reqs| == 0 then s
    else
      var next := Handle(s, reqs[0]).0;
      Run(next, reqs[1..])
  }

  /** Any sequence of requests keeps the store invariant. */
  lemma {:induction false} RunPreservesWellFormed(s: Store, reqs: seq<Request>)
    requires WellFormed(s)
    ensures WellFormed(Run(s, reqs))
    decreases |reqs|
  {
    if |reqs| > 0 {
      HandlePreservesWellFormed(s, reqs[0]);
      RunPreservesWellFormed(Handle(s, reqs[0]).0, reqs[1..]);
    }
  }

  /**
    In every store the service can reach from an empty database, emails are
    unique even after normalization, every user is active, and each user
    has at most one token.
   */
  lemma ReachableStoresWellFormed(reqs: seq<Request>)
    ensures WellFormed(Run(EmptyStore, reqs))
  {
    RunPreservesWellFormed(EmptyStore, reqs);
  }
}
